=== FILE: README.md ===
# Automower calendar schedule translation, in Dafny

The Husqvarna Automower integration for Home Assistant shows the mower's
weekly cutting schedule as a calendar. `calendar.py` translates in both
directions between two representations:

- **Device → calendar** (`get_next_event`). Each stored task has a start (minutes after
  midnight), a duration and seven weekday flags. It becomes one calendar event per flagged day
  in the seven days from local midnight today. Each event is a weekly recurrence on that
  weekday, with a uid derived from the mower's name and the task's 1-based position. While the
  events are produced, the method also keeps the nearest one. Where nothing starts before the
  end of that week, it falls back to a placeholder event two hours long, starting seven days
  ahead.
- **Calendar → device** (`async_update_event`). A proposed event is accepted only if it has a
  rule and that rule contains the texts `WEEKLY` and `BYDAY`. Nothing more is checked, so
  `FREQ=WEEKLY;BYDAY=` with no day is accepted too. The day list parsed from the rule and the
  event's clock times become a single task, and that task replaces the device's whole schedule.

The model has seven modules:

| file | module | content |
|---|---|---|
| `text.dfy` | `Text` | The Python string operations the code relies on: `in`, `lstrip`, `split` and integer formatting, plus `removeprefix` for the intended parse. |
| `weekdays.dfy` | `Weekdays` | The weekday tables and the weekday of a calendar day. |
| `schedule.dfy` | `Schedule` | Tasks and events. |
| `enumeration.dfy` | `Enumeration` | The nested loops' visiting order, over abstract day flags. |
| `expansion.dfy` | `Expansion` | `get_next_event` as a method with loops, its functional definition, and the lemmas about both. |
| `update.dfy` | `Update` | The validation, parse and task construction of `async_update_event`. |
| `roundtrip.dfy` | `RoundTrip` | What happens when an emitted event is fed back to the update. |

**Time.** Time is whole minutes of local wall-clock time, counted from 1970-01-01 00:00. So
the local midnight of day `n` is `n * 1440`, and the weekday of day `n` is `(n + 3) % 7`
(Monday = 0; 1970-01-01 was a Thursday). The current day is a parameter (`Context.anchorDay`),
and so is the resolved address (`Context.location`).

**Weekday tables.** The tables `WEEKDAYS` and `WEEKDAYS_TO_RFC5545` come from `const.py`,
which is not part of this model. They are taken to list `monday`..`sunday` and to map those
names to the RFC 5545 `BYDAY` codes `MO TU WE TH FR SA SU`.

**How the update parses the day list.** `async_update_event` reads the days with
`rrule.lstrip("FREQ=WEKLY;BDA=")`. Python's `lstrip` removes a leading run of characters
drawn from a SET, not a prefix string. The letters of `WE` and `FR` all belong to that set,
so a first day of Wednesday or Friday is stripped together with the prefix:

- `FREQ=WEEKLY;BYDAY=WE,TH` gives the day list `["", "TH"]`;
- `FREQ=WEEKLY;BYDAY=FR` gives `[""]`, a task with no day at all.

The model keeps this behaviour as written in `Update.TasksFromEvent`. It proves exactly what
gets lost (`Update.DayListOfWeeklyRule`). Next to it is the evidently intended parse
(`Update.IntendedTasksFromEvent`), which removes the prefix text. The full round trip is
proved for the intended parse (see Findings).

## Model

| member | source | states |
|---|---|---|
| Expansion.GetNextEvent | custom_components/husqvarna_automower/calendar.py:72-112 | The two nested loops return exactly the functional expansion `Expand` of the task list. The next event they return is the running strict-minimum selection over that list, starting from the placeholder. |
| Expansion.ExpandTask | custom_components/husqvarna_automower/calendar.py:93-110 | The inner loop over the seven day offsets appends the events of the task's flagged days, in day order. It keeps the running selection equal to the selection over everything appended so far. |
| Expansion.VisitDay | custom_components/husqvarna_automower/calendar.py:94-110 | One day offset appends an event exactly when the task's flag for that day's weekday is set. The next event is replaced only by a strictly earlier start. |
| Expansion.Placeholder | custom_components/husqvarna_automower/calendar.py:74-80 | Definition of the fallback next event. It starts at midnight seven days after today and lasts two hours, with an empty location and no rule or uid. |
| Expansion.EventAt | custom_components/husqvarna_automower/calendar.py:86-106 | Definition of the event for one (task, day offset) pair. It starts `task.start` minutes after that day's midnight and lasts `task.duration` minutes. Its rule is weekly on that day's weekday code, its uid is the task's, and its location is the resolved address. Its summary is the mower's name, ` Mowing schedule ` and the task's 1-based position. |
| Expansion.Expand | custom_components/husqvarna_automower/calendar.py:83-110 | Definition of the event list: one event per emitted (task, day) pair, in emission order. Its properties are stated by the `AllOccurrences*`, `ExpandedEventFields` and `ExpandCount` rows. |
| Expansion.SelectNext | custom_components/husqvarna_automower/calendar.py:107-108 | Definition of the running selection with a strict `<`. The result is the placeholder or one of the events. Its start is no later than the horizon and no later than any event's start. |
| Expansion.SelectNextIsFirstEarliest | custom_components/husqvarna_automower/calendar.py:74-108 | The next event is the placeholder when every event starts at or after midnight seven days ahead, including when there are no events. Otherwise it is an event with the earliest start, and no earlier event in the list has that start. |
| Expansion.EmptySchedule | custom_components/husqvarna_automower/calendar.py:74-112 | With no tasks there are no events, and the next event is the placeholder. |
| Expansion.AllOccurrencesExactly | custom_components/husqvarna_automower/calendar.py:83-96 | An event exists for a pair (task position, day offset 0..6) if and only if that task's flag for the day's weekday is set. |
| Expansion.ExpandedEventFields | custom_components/husqvarna_automower/calendar.py:86-104 | Every event comes from a task and a day offset 0..6 whose weekday that task runs on. It starts `task.start` minutes after that day's midnight, with no wrap at midnight, and ends `task.duration` minutes later. Its rule is weekly on that one weekday's code, and its uid is the task's. |
| Expansion.AllOccurrencesOrdered | custom_components/husqvarna_automower/calendar.py:83-110 | Events come grouped by task in stored order, then by ascending day offset, with no pair repeated. |
| Expansion.ExpandCount | custom_components/husqvarna_automower/calendar.py:83-110 | The number of events equals the number of weekday flags set across all tasks, whatever weekday today is. |
| Expansion.TaskEventCount | custom_components/husqvarna_automower/calendar.py:93-96 | Seven consecutive days meet each weekday once, so a task yields exactly as many events as it has flags set. |
| Expansion.DayFlagsRotate | custom_components/husqvarna_automower/calendar.py:93-96 | The flags read day by day from today are the task's weekday flags, rotated to start at today's weekday. |
| Expansion.EventOnItsDay | custom_components/husqvarna_automower/calendar.py:86-103 | For a start within the day, the event falls on the day its offset names, and its rule names that day's weekday. |
| Expansion.UidIdentifiesTask | custom_components/husqvarna_automower/calendar.py:104 | Two events share a uid exactly when they come from the same task position. |
| Expansion.OneTaskEventsAscend | custom_components/husqvarna_automower/calendar.py:93-104 | Later events with the same uid start at least one day later, and a whole number of days apart. |
| Enumeration.OccurrencesSound | custom_components/husqvarna_automower/calendar.py:83-96 | Every visited pair names a task of the list, a day within range and a set flag. |
| Enumeration.OccurrencesComplete | custom_components/husqvarna_automower/calendar.py:83-96 | Every set flag of every task is visited. |
| Enumeration.OccurrencesOrdered | custom_components/husqvarna_automower/calendar.py:83-110 | Pairs are visited in strictly increasing (task, day) order. |
| Enumeration.OccurrencesLength | custom_components/husqvarna_automower/calendar.py:83-110 | The number of pairs visited equals the number of flags set. |
| Weekdays.WeekdayOfLaterDay | custom_components/husqvarna_automower/calendar.py:94 | The weekday `d` days after a day is that day's weekday advanced by `d`, modulo seven. |
| Weekdays.WeekdayOfDay | custom_components/husqvarna_automower/calendar.py:94 | Definition of `date.weekday()` on a day count from 1970-01-01. The result is congruent to the day plus three modulo seven, so day 0 is a Thursday. |
| Schedule.RunsOnByName | custom_components/husqvarna_automower/calendar.py:95-96 | Looking a weekday's `WEEKDAYS` name up in the task record always finds a flag, and that flag is the one the model reads by position. |
| Weekdays.NamesAreDistinct | custom_components/husqvarna_automower/calendar.py:95 | Distinct weekdays have distinct `WEEKDAYS` names, so each weekday reads its own flag. |
| Weekdays.CodesAreDistinct | custom_components/husqvarna_automower/calendar.py:97 | Distinct weekdays have distinct RFC 5545 codes. Each code is two letters long and has no comma. |
| Text.NatToStringInjective | custom_components/husqvarna_automower/calendar.py:99-104 | The 1-based task numbers in the summaries and uids are distinct text for distinct positions. |
| Text.ContainsIffOccurs | custom_components/husqvarna_automower/calendar.py:140-143 | A substring test holds exactly when the text occurs at some position. |
| Text.LStrip | custom_components/husqvarna_automower/calendar.py:144 | The strip removes a prefix made only of the given characters and stops at the first character outside the set. |
| Text.Split | custom_components/husqvarna_automower/calendar.py:145 | Splitting at commas gives at least one piece. No piece holds a comma, and joining the pieces back gives the text. |
| Text.SplitJoin | custom_components/husqvarna_automower/calendar.py:145 | Splitting a comma-join of comma-free pieces gives back the pieces. |
| Update.ValidateRule | custom_components/husqvarna_automower/calendar.py:135-143 | A missing rule is rejected first, then a rule without `WEEKLY`, then one without `BYDAY`. A rule passes exactly when it has both. |
| Update.TaskFor | custom_components/husqvarna_automower/calendar.py:148-163 | The task starts at the clock time of `dtstart` and ends at the clock time of `dtend`. It runs on a weekday exactly when that weekday's code is in the day list. |
| Update.TasksFromEvent | custom_components/husqvarna_automower/calendar.py:135-163 | An update is rejected exactly when validation fails, with validation's error. Otherwise it yields one task built from the day list as written. |
| Update.ScheduleAfterUpdate | custom_components/husqvarna_automower/calendar.py:163-174 | Definition of the schedule once the update is sent. A rejected update leaves the schedule unchanged. An accepted one holds exactly the one task built from the event, whatever the device held before. |
| Update.ClockMinutes | custom_components/husqvarna_automower/calendar.py:149-152 | Definition of the clock reading `hour * 60 + minute`. It is the offset from that day's midnight, from 0 to 1439. |
| Update.StripCharsOfArgument | custom_components/husqvarna_automower/calendar.py:144 | The stripped set holds exactly the characters of the `lstrip` argument. |
| Update.DayList | custom_components/husqvarna_automower/calendar.py:144-145 | Definition of the as-written parse. It gives at least one piece, no piece holds a comma, and the pieces joined by commas are the stripped rule. |
| Update.DayListOfWeeklyRule | custom_components/husqvarna_automower/calendar.py:144-145 | A weekly rule listing days gives back their codes in order, except that a leading `WE` or `FR` becomes an empty string. |
| Update.UpdateFromWeeklyRule | custom_components/husqvarna_automower/calendar.py:140-163 | A weekly rule listing days is accepted. The task runs on exactly the listed days, less a leading Wednesday or Friday. |
| Update.MondayWednesdayExample | custom_components/husqvarna_automower/calendar.py:144-163 | `BYDAY=MO,WE` from 08:00 to 10:30 gives the task start 480, duration 150, Monday and Wednesday only. |
| Update.OvernightEventExample | custom_components/husqvarna_automower/calendar.py:149-153 | An event from 23:00 to 01:00 the next day gives a task starting at 1380 with duration -1320, because clock times are subtracted with no wrap. |
| Update.AllDayEventExample | custom_components/husqvarna_automower/calendar.py:149-153 | An event from midnight to the next midnight gives a task starting at 0 with duration 0, because both clock readings are 00:00. |
| Update.LeadingWednesdayOrFridayLost | custom_components/husqvarna_automower/calendar.py:144-145 | `BYDAY=WE,TH` parses to `["", "TH"]`, and `BYDAY=FR` parses to `[""]`. |
| Update.OneOffRejected | custom_components/husqvarna_automower/calendar.py:135-139 | An event with no rule is rejected as not recurring. |
| Update.DailyRejected | custom_components/husqvarna_automower/calendar.py:140-141 | A daily rule is rejected as not weekly. |
| Update.WeeklyWithoutDaysRejected | custom_components/husqvarna_automower/calendar.py:142-143 | `FREQ=WEEKLY` with no day list is rejected for missing days. |
| Update.EmptyDayListAccepted | custom_components/husqvarna_automower/calendar.py:140-163 | `FREQ=WEEKLY;BYDAY=` with nothing after it passes all three checks. Its day list is `[""]`, and the task runs on no day. |
| Update.IntendedTasksFromEvent | custom_components/husqvarna_automower/calendar.py:135-163 | The same validation and task as `TasksFromEvent`, with the prefix text removed instead of a character set. |
| Update.IntendedDayListOfWeeklyRule | custom_components/husqvarna_automower/calendar.py:144-145 | With the intended parse, a weekly rule gives back the codes of all its days, in order. |
| Update.IntendedUpdateFromWeeklyRule | custom_components/husqvarna_automower/calendar.py:140-163 | With the intended parse, the task runs on exactly the days the rule lists. |
| RoundTrip.EventRoundTrip | custom_components/husqvarna_automower/calendar.py:144-163 | As written, an emitted event of a task within one day, fed back, gives the task's start and duration. The task runs on the event's weekday only, or on no day for Wednesday and Friday. |
| RoundTrip.IntendedEventRoundTrip | custom_components/husqvarna_automower/calendar.py:144-163 | With the intended parse, the same round trip gives a task that runs on exactly the event's weekday. |
| RoundTrip.SingleDayTaskRoundTrip | custom_components/husqvarna_automower/calendar.py:93-163 | With the intended parse, a task with one weekday flag, lying within one day, comes back identical from any of its events. As written, a Wednesday-only or Friday-only task comes back with no day set (`RoundTrip.EventRoundTrip`). |

## Findings

| source | as written | input that shows it | evidently intended | confidence | as-written member | corrected member |
|---|---|---|---|---|---|---|
| custom_components/husqvarna_automower/calendar.py:144 | `lstrip("FREQ=WEKLY;BDA=")` strips any leading run of the characters `F R E Q = W K L Y ; B D A`, not the prefix text. | `FREQ=WEEKLY;BYDAY=WE,TH` gives day list `["", "TH"]`, so Wednesday is lost. `FREQ=WEEKLY;BYDAY=FR` gives `[""]`, a task with no day. | Remove the prefix text `FREQ=WEEKLY;BYDAY=` and split the rest, so every listed day is kept. | high, not executed | Update.LeadingWednesdayOrFridayLost | Update.IntendedDayListOfWeeklyRule |

## Left out

- The address lookup in `async_get_events_data` (lines 55-70) is a network call. Its outcome is the parameter `Context.location`: the address text, or `None` when the lookup returned no usable address (lines 64-67). The `event` property does no lookup and reuses the last address held, which is `None` before any lookup (line 51). The position reads and the lookup itself (lines 60-63) sit outside the `try`. If one of them raises, `async_get_events_data` ends with that exception and returns no events. That path is not modelled.
- `async_get_events` (lines 114-118) returns what `async_get_events_data` returns: the lookup above followed by `get_next_event`, with the requested date range ignored. The `event` property (lines 120-124) returns the next event of `get_next_event`. Neither adds schedule logic of its own.
- `async_setup_entry` and the entity constructor (lines 25-53) are platform wiring, not schedule logic.
- The JSON payload, the command sent through the session and the state refresh (lines 165-177) are I/O. `Update.ScheduleAfterUpdate` assumes that the device stores the tasks it is sent. Only a `ClientResponseError` from the send is caught and logged (lines 175-176), and the refresh follows. Any other exception from the send ends the update without the refresh at line 177. Neither path is modelled.
- The `uid`, `recurrence_id` and `recurrence_range` parameters of `async_update_event` are not read by the source, so they do not appear in the model.
- The model assumes that the event dictionary's `rrule`, when present, is a string. A present `None` would raise a `TypeError` at the `in` test, and that is not modelled.
- The source reads the clock several times: `dt_util.start_of_local_day()` is called twice for the placeholder (lines 76-77) and once per task (line 85). The model reads one `Context.anchorDay` for the whole call, so a call that runs across midnight, where later reads give the next day, is not modelled.
- The update assumes that the event dictionary holds `dtstart` and `dtend` as datetimes. A missing key raises `KeyError`, and an all-day `date` value (which has no `hour`) raises `AttributeError` at line 147. Neither error path is modelled.
- Time zones and daylight-saving transitions are not modelled. Every day is 1440 local minutes, and `timedelta` arithmetic is plain minute addition.
- Tasks are the records the device reports, with boolean flags. The comparison `is True` is modelled as reading a boolean, and a non-boolean flag value is not modelled.
- Expansion.EventOnItsDay: the day and weekday statements are proved only for a task whose start lies within its day (0 to 1439). Starts outside that range are not range-checked by the source. Their events then fall on another day, and the model computes them without stating which.
- RoundTrip.EventRoundTrip: it is stated only for tasks that start and end within one day with a non-negative duration. The update subtracts clock readings, so a task with a start `s` from 0 to 1439 and duration `d` comes back with duration `(s + d) % 1440 - s`. That is negative for a task ending after midnight but within the next day (`Update.OvernightEventExample`). It is zero for an all-day task from 0 with duration 1440 (`Update.AllDayEventExample`). It can be positive again for a task over a day long.
- Weekdays.CodesAreDistinct: it states the code table as assumed here, because `const.py` is not part of this model.

=== FILE: enumeration.dfy ===
/** The (task, day) pairs that the two nested loops of `get_next_event`
    visit and keep: for each task in stored order, each day offset in
    ascending order whose flag is set. The per-day flags of each task are a
    parameter here (`weeks[i][d]`); the calendar supplies them from the
    weekday of each day. */
module Enumeration {
  import opened Schedule

  /** A kept pair: the task's position in the schedule, the day offset from
      the anchor, and the task. */
  datatype Occurrence = Occurrence(index: nat, day: nat, task: Task)

  /** Emission order: by task position, then by day offset. */
  predicate Precedes(a: Occurrence, b: Occurrence)
  {
    a.index < b.index || (a.index == b.index && a.day < b.day)
  }

  /** The kept days among the first `n` of task `t` at position `i`, in the
      order the inner loop visits them. */
  function TaskOccurrences(flags: seq<bool>, t: Task, i: nat, n: nat): seq<Occurrence>
    requires n <= |flags|
    decreases n
  {
    if n == 0 then []
    else
      TaskOccurrences(flags, t, i, n - 1)
      + (if flags[n - 1] then [Occurrence(i, n - 1, t)] else [])
  }

  /** The kept pairs of the first `n` tasks, in the order the outer loop
      visits them. */
  function Occurrences(tasks: seq<Task>, weeks: seq<seq<bool>>, n: nat): seq<Occurrence>
    requires n <= |tasks| == |weeks|
    decreases n
  {
    if n == 0 then []
    else Occurrences(tasks, weeks, n - 1) + TaskOccurrences(weeks[n - 1], tasks[n - 1], n - 1, |weeks[n - 1]|)
  }

  lemma {:induction false} TaskOccurrencesSound(flags: seq<bool>, t: Task, i: nat, n: nat)
    requires n <= |flags|
    ensures forall o :: o in TaskOccurrences(flags, t, i, n) ==>
      o.index == i && o.task == t && o.day < n && flags[o.day]
    decreases n
  {
    if n > 0 {
      TaskOccurrencesSound(flags, t, i, n - 1);
    }
  }

  lemma {:induction false} TaskOccurrencesComplete(flags: seq<bool>, t: Task, i: nat, n: nat)
    requires n <= |flags|
    ensures forall d: nat :: d < n && flags[d] ==> Occurrence(i, d, t) in TaskOccurrences(flags, t, i, n)
    decreases n
  {
    if n > 0 {
      TaskOccurrencesComplete(flags, t, i, n - 1);
    }
  }

  lemma {:induction false} TaskOccurrencesOrdered(flags: seq<bool>, t: Task, i: nat, n: nat)
    requires n <= |flags|
    ensures forall j, k :: 0 <= j < k < |TaskOccurrences(flags, t, i, n)| ==>
      TaskOccurrences(flags, t, i, n)[j].day < TaskOccurrences(flags, t, i, n)[k].day
    decreases n
  {
    if n > 0 {
      TaskOccurrencesOrdered(flags, t, i, n - 1);
      TaskOccurrencesSound(flags, t, i, n - 1);
      var a := TaskOccurrences(flags, t, i, n - 1);
      var r := TaskOccurrences(flags, t, i, n);
      forall j, k | 0 <= j < k < |r|
        ensures r[j].day < r[k].day
      {
        if k < |a| {
          assert r[j] == a[j] && r[k] == a[k];
        } else {
          assert r[j] == a[j] && a[j] in a;
          assert r[k].day == n - 1;
        }
      }
    }
  }

  /** A task contributes one pair per flag set. */
  lemma {:induction false} TaskOccurrencesLength(flags: seq<bool>, t: Task, i: nat, n: nat)
    requires n <= |flags|
    ensures |TaskOccurrences(flags, t, i, n)| == CountSet(flags[..n])
    decreases n
  {
    if n > 0 {
      TaskOccurrencesLength(flags, t, i, n - 1);
      assert flags[..n][..n - 1] == flags[..n - 1];
    }
  }

  /** Every kept pair is a set flag of one of the first `n` tasks. */
  lemma {:induction false} OccurrencesSound(tasks: seq<Task>, weeks: seq<seq<bool>>, n: nat)
    requires n <= |tasks| == |weeks|
    ensures forall o :: o in Occurrences(tasks, weeks, n) ==>
      o.index < n && o.task == tasks[o.index] && o.day < |weeks[o.index]| && weeks[o.index][o.day]
    decreases n
  {
    if n > 0 {
      OccurrencesSound(tasks, weeks, n - 1);
      TaskOccurrencesSound(weeks[n - 1], tasks[n - 1], n - 1, |weeks[n - 1]|);
    }
  }

  /** Every set flag of the first `n` tasks is kept. */
  lemma {:induction false} OccurrencesComplete(tasks: seq<Task>, weeks: seq<seq<bool>>, n: nat)
    requires n <= |tasks| == |weeks|
    ensures forall i: nat, d: nat :: i < n && d < |weeks[i]| && weeks[i][d] ==>
      Occurrence(i, d, tasks[i]) in Occurrences(tasks, weeks, n)
    decreases n
  {
    if n > 0 {
      OccurrencesComplete(tasks, weeks, n - 1);
      TaskOccurrencesComplete(weeks[n - 1], tasks[n - 1], n - 1, |weeks[n - 1]|);
    }
  }

  /** Kept pairs come out strictly sorted by task position, then by day;
      in particular none is repeated. */
  lemma {:induction false} OccurrencesOrdered(tasks: seq<Task>, weeks: seq<seq<bool>>, n: nat)
    requires n <= |tasks| == |weeks|
    ensures forall j, k :: 0 <= j < k < |Occurrences(tasks, weeks, n)| ==>
      Precedes(Occurrences(tasks, weeks, n)[j], Occurrences(tasks, weeks, n)[k])
    decreases n
  {
    if n > 0 {
      OccurrencesOrdered(tasks, weeks, n - 1);
      OccurrencesSound(tasks, weeks, n - 1);
      TaskOccurrencesSound(weeks[n - 1], tasks[n - 1], n - 1, |weeks[n - 1]|);
      TaskOccurrencesOrdered(weeks[n - 1], tasks[n - 1], n - 1, |weeks[n - 1]|);
      var a := Occurrences(tasks, weeks, n - 1);
      var b := TaskOccurrences(weeks[n - 1], tasks[n - 1], n - 1, |weeks[n - 1]|);
      var r := Occurrences(tasks, weeks, n);
      forall j, k | 0 <= j < k < |r|
        ensures Precedes(r[j], r[k])
      {
        if k < |a| {
          assert r[j] == a[j] && r[k] == a[k];
        } else if j < |a| {
          assert r[j] == a[j] && a[j] in a;
          assert r[k] == b[k - |a|] && b[k - |a|] in b;
        } else {
          assert r[j] == b[j - |a|] && r[k] == b[k - |a|];
        }
      }
    }
  }

  /** Number of flags set across the first `n` weeks. */
  function WeeksCount(weeks: seq<seq<bool>>, n: nat): nat
    requires n <= |weeks|
    decreases n
  {
    if n == 0 then 0 else WeeksCount(weeks, n - 1) + CountSet(weeks[n - 1])
  }

  lemma {:induction false} OccurrencesLength(tasks: seq<Task>, weeks: seq<seq<bool>>, n: nat)
    requires n <= |tasks| == |weeks|
    ensures |Occurrences(tasks, weeks, n)| == WeeksCount(weeks, n)
    decreases n
  {
    if n > 0 {
      OccurrencesLength(tasks, weeks, n - 1);
      var flags := weeks[n - 1];
      TaskOccurrencesLength(flags, tasks[n - 1], n - 1, |flags|);
      assert flags[..|flags|] == flags;
    }
  }
}

=== FILE: expansion.dfy ===
/** `AutomowerCalendar.get_next_event`: the device's tasks expanded into one
    calendar event per (task, flagged day) over the seven days that start at
    local midnight of the anchor day, and the nearest of those events. */
module Expansion {
  import opened Text
  import opened Weekdays
  import opened Schedule
  import opened Enumeration

  /** What the expansion reads besides the tasks: the mower's name, the day
      whose local midnight anchors the week, and the resolved address
      (`None` when the address lookup failed). */
  datatype Context = Context(mowerName: string, anchorDay: int, location: Option<string>)

  const DaysPerWeek: nat := 7

  /** `dt_util.start_of_local_day()`. */
  function Anchor(ctx: Context): Instant
  {
    ctx.anchorDay * MinutesPerDay
  }

  /** Local midnight seven days after the anchor. */
  function Horizon(ctx: Context): Instant
  {
    Anchor(ctx) + DaysPerWeek * MinutesPerDay
  }

  /** The event returned when no task yields an earlier one: from midnight
      seven days ahead to two hours later, with no rule and no uid. */
  function Placeholder(ctx: Context): (e: Event)
    ensures e.start == Anchor(ctx) + DaysPerWeek * MinutesPerDay
    ensures e.end - e.start == 2 * MinutesPerHour
    ensures e.rrule.None? && e.uid.None? && e.location == Some("")
  {
    Event("", Horizon(ctx), Horizon(ctx) + 2 * MinutesPerHour, Some(""), None, None, "Good time to mow")
  }

  /** The weekday of the day `d` days after the anchor. */
  function DayWeekday(ctx: Context, d: nat): Weekday
  {
    WeekdayOfDay(ctx.anchorDay + d)
  }

  /** For each day offset 0..6, the task's flag for that day's weekday. */
  function DayFlags(ctx: Context, t: Task): (flags: seq<bool>)
    ensures |flags| == DaysPerWeek
  {
    seq(DaysPerWeek, d requires 0 <= d < DaysPerWeek => t.RunsOn(DayWeekday(ctx, d)))
  }

  function WeekFlags(ctx: Context, tasks: seq<Task>): (weeks: seq<seq<bool>>)
    ensures |weeks| == |tasks|
  {
    seq(|tasks|, i requires 0 <= i < |tasks| => DayFlags(ctx, tasks[i]))
  }

  /** The (task, day) pairs that yield an event, in emission order. */
  function AllOccurrences(ctx: Context, tasks: seq<Task>): seq<Occurrence>
  {
    Occurrences(tasks, WeekFlags(ctx, tasks), |tasks|)
  }

  /** The recurrence rule of an event on weekday `w`: weekly, that one day. */
  function RRuleFor(w: Weekday): string
  {
    WeeklyPrefix + Code(w)
  }

  /** The uid of every event of the task at position `i`: the mower's name
      and the task's 1-based position. */
  function Uid(ctx: Context, i: nat): string
  {
    ctx.mowerName + "-" + NatToString(i + 1)
  }

  function Summary(ctx: Context, i: nat): string
  {
    ctx.mowerName + " Mowing schedule " + NatToString(i + 1)
  }

  /** The event built for one (task, day) pair. Start and end are offsets
      from the anchor as in the source: no wrap at midnight and no check on
      the duration's sign. */
  function EventAt(ctx: Context, o: Occurrence): (e: Event)
    ensures e.start == Anchor(ctx) + o.day * MinutesPerDay + o.task.start
    ensures e.end - e.start == o.task.duration
    ensures e.rrule == Some(WeeklyPrefix + Code(DayWeekday(ctx, o.day)))
    ensures e.uid == Some(Uid(ctx, o.index)) && e.location == ctx.location
    ensures e.summary == Summary(ctx, o.index) && e.description == "Nice day to mow"
  {
    var startMowing := Anchor(ctx) + o.task.start;
    var endMowing := Anchor(ctx) + o.task.start + o.task.duration;
    Event(
      Summary(ctx, o.index),
      startMowing + o.day * MinutesPerDay,
      endMowing + o.day * MinutesPerDay,
      ctx.location,
      Some(RRuleFor(DayWeekday(ctx, o.day))),
      Some(Uid(ctx, o.index)),
      "Nice day to mow")
  }

  function EventsOf(ctx: Context, occ: seq<Occurrence>): (events: seq<Event>)
    ensures |events| == |occ|
  {
    seq(|occ|, k requires 0 <= k < |occ| => EventAt(ctx, occ[k]))
  }

  /** The event list `get_next_event` returns. */
  function Expand(ctx: Context, tasks: seq<Task>): (events: seq<Event>)
    ensures |events| == |AllOccurrences(ctx, tasks)|
  {
    EventsOf(ctx, AllOccurrences(ctx, tasks))
  }

  /** The next event, as the source's running comparison leaves it after
      seeing `events` in order: replaced only by a STRICTLY earlier start. */
  function SelectNext(ctx: Context, events: seq<Event>): (e: Event)
    ensures e == Placeholder(ctx) || e in events
    ensures e.start <= Horizon(ctx)
    ensures forall k :: 0 <= k < |events| ==> e.start <= events[k].start
    decreases |events|
  {
    if |events| == 0 then Placeholder(ctx)
    else
      var previous := SelectNext(ctx, events[..|events| - 1]);
      var last := events[|events| - 1];
      if last.start < previous.start then last else previous
  }

  /** `get_next_event` with its two loops: the expansion and the next event,
      selected while the events are appended. */
  method GetNextEvent(ctx: Context, tasks: seq<Task>) returns (events: seq<Event>, next: Event)
    ensures events == Expand(ctx, tasks)
    ensures next == SelectNext(ctx, events)
  {
    ghost var weeks := WeekFlags(ctx, tasks);
    ghost var seen: seq<Occurrence> := [];
    next := Placeholder(ctx);
    events := [];
    var i := 0;
    while i < |tasks|
      invariant 0 <= i <= |tasks|
      invariant seen == Occurrences(tasks, weeks, i)
      invariant events == EventsOf(ctx, seen)
      invariant next == SelectNext(ctx, events)
    {
      OccurrencesStep(ctx, tasks, weeks, i);
      seen, events, next := ExpandTask(ctx, tasks[i], i, seen, events, next);
      i := i + 1;
    }
  }

  /** The inner loop of `get_next_event` for the task at position `i`:
      appends its events and keeps the running next event up to date. */
  method ExpandTask(ctx: Context, task: Task, i: nat, ghost seen0: seq<Occurrence>, events0: seq<Event>, next0: Event)
    returns (ghost seen: seq<Occurrence>, events: seq<Event>, next: Event)
    requires events0 == EventsOf(ctx, seen0) && next0 == SelectNext(ctx, events0)
    ensures seen == seen0 + TaskOccurrences(DayFlags(ctx, task), task, i, DaysPerWeek)
    ensures events == EventsOf(ctx, seen) && next == SelectNext(ctx, events)
  {
    ghost var flags := DayFlags(ctx, task);
    seen, events, next := seen0, events0, next0;
    var d := 0;
    while d < DaysPerWeek
      invariant 0 <= d <= DaysPerWeek
      invariant seen == seen0 + TaskOccurrences(flags, task, i, d)
      invariant events == EventsOf(ctx, seen)
      invariant next == SelectNext(ctx, events)
    {
      seen, events, next := VisitDay(ctx, task, i, d, seen0, seen, events, next);
      d := d + 1;
    }
  }

  /** One pass of the inner loop: day `d` after the anchor. When the task
      runs on that day's weekday, its event is appended and becomes the next
      event if it starts strictly earlier. */
  method VisitDay(ctx: Context, task: Task, i: nat, d: nat,
                  ghost seen0: seq<Occurrence>, ghost seen1: seq<Occurrence>, events1: seq<Event>, next1: Event)
    returns (ghost seen: seq<Occurrence>, events: seq<Event>, next: Event)
    requires d < DaysPerWeek
    requires seen1 == seen0 + TaskOccurrences(DayFlags(ctx, task), task, i, d)
    requires events1 == EventsOf(ctx, seen1) && next1 == SelectNext(ctx, events1)
    ensures seen == seen0 + TaskOccurrences(DayFlags(ctx, task), task, i, d + 1)
    ensures events == EventsOf(ctx, seen) && next == SelectNext(ctx, events)
  {
    ghost var flags := DayFlags(ctx, task);
    seen, events, next := seen1, events1, next1;
    var today := WeekdayOfDay(ctx.anchorDay + d);
    assert flags[d] == task.RunsOn(today);
    if task.RunsOn(today) {
      var event := EventAt(ctx, Occurrence(i, d, task));
      if event.start < next.start {
        next := event;
      }
      KeptStep(ctx, flags, task, i, d, seen0, seen, events);
      seen := seen + [Occurrence(i, d, task)];
      events := events + [event];
    } else {
      SkippedStep(flags, task, i, d);
    }
  }

  /** The outer loop's step: the pairs of the first `i + 1` tasks are those
      of the first `i` followed by the kept days of task `i`. */
  lemma OccurrencesStep(ctx: Context, tasks: seq<Task>, weeks: seq<seq<bool>>, i: nat)
    requires weeks == WeekFlags(ctx, tasks) && i < |tasks|
    ensures Occurrences(tasks, weeks, i + 1) ==
      Occurrences(tasks, weeks, i) + TaskOccurrences(DayFlags(ctx, tasks[i]), tasks[i], i, DaysPerWeek)
  {
    assert weeks[i] == DayFlags(ctx, tasks[i]);
  }

  /** The inner loop's step on a kept day: the pair and its event are
      appended, and the running selection sees one more event. */
  lemma KeptStep(ctx: Context, flags: seq<bool>, task: Task, i: nat, d: nat,
                 seen0: seq<Occurrence>, seen: seq<Occurrence>, events: seq<Event>)
    requires d < |flags| && flags[d]
    requires seen == seen0 + TaskOccurrences(flags, task, i, d)
    requires events == EventsOf(ctx, seen)
    ensures seen + [Occurrence(i, d, task)] == seen0 + TaskOccurrences(flags, task, i, d + 1)
    ensures events + [EventAt(ctx, Occurrence(i, d, task))] == EventsOf(ctx, seen + [Occurrence(i, d, task)])
    ensures (events + [EventAt(ctx, Occurrence(i, d, task))])[..|events|] == events
  {
    EventsOfSnoc(ctx, seen, Occurrence(i, d, task));
  }

  /** The inner loop's step on a day the task does not run: nothing kept. */
  lemma SkippedStep(flags: seq<bool>, task: Task, i: nat, d: nat)
    requires d < |flags| && !flags[d]
    ensures TaskOccurrences(flags, task, i, d + 1) == TaskOccurrences(flags, task, i, d)
  {
  }

  lemma EventsOfSnoc(ctx: Context, occ: seq<Occurrence>, o: Occurrence)
    ensures EventsOf(ctx, occ + [o]) == EventsOf(ctx, occ) + [EventAt(ctx, o)]
  {
  }

  /** `events[k]` has the earliest start, and every event before it starts
      strictly later: it is the first of the equally earliest. */
  ghost predicate FirstEarliest(events: seq<Event>, k: int)
  {
    && 0 <= k < |events|
    && (forall j :: 0 <= j < |events| ==> events[k].start <= events[j].start)
    && (forall j :: 0 <= j < k ==> events[k].start < events[j].start)
  }

  /** The selection by cases, with the chosen position as a witness:
      `-1` for the placeholder. */
  lemma {:induction false} SelectNextWitness(ctx: Context, events: seq<Event>) returns (k: int)
    ensures k == -1 ==>
      (forall j :: 0 <= j < |events| ==> events[j].start >= Horizon(ctx))
      && SelectNext(ctx, events) == Placeholder(ctx)
    ensures k != -1 ==>
      FirstEarliest(events, k) && events[k].start < Horizon(ctx) && SelectNext(ctx, events) == events[k]
    decreases |events|
  {
    if |events| == 0 {
      k := -1;
    } else {
      var n := |events| - 1;
      var prefix := events[..n];
      var last := events[n];
      assert forall j :: 0 <= j < n ==> events[j] == prefix[j];
      var kp := SelectNextWitness(ctx, prefix);
      var previous := SelectNext(ctx, prefix);
      if last.start < previous.start {
        k := n;
      } else {
        k := kp;
      }
    }
  }

  /** What the next-event selection picks: the placeholder when no event
      starts before the horizon (in particular when there are none),
      otherwise the first of the events with the earliest start. */
  lemma SelectNextIsFirstEarliest(ctx: Context, events: seq<Event>)
    ensures (forall j :: 0 <= j < |events| ==> events[j].start >= Horizon(ctx)) ==>
      SelectNext(ctx, events) == Placeholder(ctx)
    ensures (exists j :: 0 <= j < |events| && events[j].start < Horizon(ctx)) ==>
      exists k :: FirstEarliest(events, k) && SelectNext(ctx, events) == events[k]
  {
    var k := SelectNextWitness(ctx, events);
  }

  /** An empty schedule yields no events, and its next event is the
      placeholder. */
  lemma EmptySchedule(ctx: Context)
    ensures Expand(ctx, []) == []
    ensures SelectNext(ctx, Expand(ctx, [])) == Placeholder(ctx)
  {
  }

  /** The (task, day) pairs that yield events are exactly the pairs of a
      task in the schedule and a day offset 0..6 whose weekday that task
      runs on. */
  lemma AllOccurrencesExactly(ctx: Context, tasks: seq<Task>)
    ensures forall o :: o in AllOccurrences(ctx, tasks) ==>
      o.index < |tasks| && o.task == tasks[o.index] && o.day < DaysPerWeek && o.task.RunsOn(DayWeekday(ctx, o.day))
    ensures forall i: nat, d: nat :: i < |tasks| && d < DaysPerWeek && tasks[i].RunsOn(DayWeekday(ctx, d)) ==>
      Occurrence(i, d, tasks[i]) in AllOccurrences(ctx, tasks)
  {
    var weeks := WeekFlags(ctx, tasks);
    OccurrencesSound(tasks, weeks, |tasks|);
    OccurrencesComplete(tasks, weeks, |tasks|);
    forall i: nat, d: nat | i < |tasks| && d < DaysPerWeek
      ensures weeks[i][d] == tasks[i].RunsOn(DayWeekday(ctx, d))
    {
    }
  }

  /** Each event of the expansion is the event of one task on one day
      offset that task runs on: it starts `task.start` minutes after that
      day's midnight, lasts the task's duration, recurs weekly on that day's
      weekday alone and carries the task's uid. */
  lemma ExpandedEventFields(ctx: Context, tasks: seq<Task>, k: nat)
    requires k < |Expand(ctx, tasks)|
    ensures exists i: nat, d: nat ::
      && i < |tasks| && d < DaysPerWeek
      && tasks[i].RunsOn(DayWeekday(ctx, d))
      && Expand(ctx, tasks)[k].start == Anchor(ctx) + d * MinutesPerDay + tasks[i].start
      && Expand(ctx, tasks)[k].end == Expand(ctx, tasks)[k].start + tasks[i].duration
      && Expand(ctx, tasks)[k].rrule == Some(WeeklyPrefix + Code(DayWeekday(ctx, d)))
      && Expand(ctx, tasks)[k].uid == Some(Uid(ctx, i))
  {
    var o := AllOccurrences(ctx, tasks)[k];
    AllOccurrencesExactly(ctx, tasks);
    assert o in AllOccurrences(ctx, tasks);
    assert Expand(ctx, tasks)[k] == EventAt(ctx, o);
  }

  /** The events come out grouped by task in stored order and, within a
      task, by ascending day offset. */
  lemma AllOccurrencesOrdered(ctx: Context, tasks: seq<Task>)
    ensures forall j, k :: 0 <= j < k < |AllOccurrences(ctx, tasks)| ==>
      Precedes(AllOccurrences(ctx, tasks)[j], AllOccurrences(ctx, tasks)[k])
  {
    OccurrencesOrdered(tasks, WeekFlags(ctx, tasks), |tasks|);
  }

  /** Number of (task, weekday) flags set across a schedule. */
  function TotalFlags(tasks: seq<Task>): nat
    decreases |tasks|
  {
    if |tasks| == 0 then 0 else TotalFlags(tasks[..|tasks| - 1]) + FlagCount(tasks[|tasks| - 1])
  }

  /** Position `d` of the rotation of a week that starts at `r`. */
  lemma RotatedAt(flags: seq<bool>, r: Weekday, d: nat)
    requires |flags| == DaysPerWeek && d < DaysPerWeek
    ensures (flags[r..] + flags[..r])[d] == flags[(r + d) % DaysPerWeek]
  {
    if r + d < DaysPerWeek {
      assert (r + d) % DaysPerWeek == r + d;
    } else {
      assert (r + d) % DaysPerWeek == r + d - DaysPerWeek;
    }
  }

  /** Read from the anchor day on, a task's flags are its weekday flags
      rotated to start at the anchor's weekday. */
  lemma DayFlagsRotate(ctx: Context, t: Task)
    ensures DayFlags(ctx, t) == t.Flags()[WeekdayOfDay(ctx.anchorDay)..] + t.Flags()[..WeekdayOfDay(ctx.anchorDay)]
  {
    var r := WeekdayOfDay(ctx.anchorDay);
    var flags := t.Flags();
    var rotated := flags[r..] + flags[..r];
    forall d | 0 <= d < DaysPerWeek
      ensures DayFlags(ctx, t)[d] == rotated[d]
    {
      WeekdayOfLaterDay(ctx.anchorDay, d);
      RotatedAt(flags, r, d);
    }
  }

  /** A task yields one event per weekday it runs on, whatever weekday the
      anchor falls on; so a task with no flag set yields none. */
  lemma TaskEventCount(ctx: Context, t: Task)
    ensures CountSet(DayFlags(ctx, t)) == FlagCount(t)
  {
    DayFlagsRotate(ctx, t);
    var r := WeekdayOfDay(ctx.anchorDay);
    CountSetAppend(t.Flags()[r..], t.Flags()[..r]);
    CountSetAppend(t.Flags()[..r], t.Flags()[r..]);
    assert t.Flags()[..r] + t.Flags()[r..] == t.Flags();
  }

  lemma {:induction false} WeeksCountIsTotalFlags(ctx: Context, tasks: seq<Task>, n: nat)
    requires n <= |tasks|
    ensures WeeksCount(WeekFlags(ctx, tasks), n) == TotalFlags(tasks[..n])
    decreases n
  {
    if n > 0 {
      WeeksCountIsTotalFlags(ctx, tasks, n - 1);
      TaskEventCount(ctx, tasks[n - 1]);
      assert tasks[..n][..n - 1] == tasks[..n - 1];
    }
  }

  /** The expansion holds exactly as many events as there are weekday flags
      set across the schedule. */
  lemma ExpandCount(ctx: Context, tasks: seq<Task>)
    ensures |Expand(ctx, tasks)| == TotalFlags(tasks)
  {
    OccurrencesLength(tasks, WeekFlags(ctx, tasks), |tasks|);
    WeeksCountIsTotalFlags(ctx, tasks, |tasks|);
    assert tasks[..|tasks|] == tasks;
  }

  /** Every event lasts exactly its task's duration, whatever the day, and a
      task starting within its day yields events that start on the day the
      pair names, with a rule naming that day's weekday. */
  lemma EventOnItsDay(ctx: Context, o: Occurrence)
    ensures 0 <= o.task.start < MinutesPerDay ==>
      EventAt(ctx, o).start / MinutesPerDay == ctx.anchorDay + o.day
      && EventAt(ctx, o).rrule == Some(RRuleFor(WeekdayOfDay(EventAt(ctx, o).start / MinutesPerDay)))
  {
    var e := EventAt(ctx, o);
    if 0 <= o.task.start < MinutesPerDay {
      assert e.start == (ctx.anchorDay + o.day) * MinutesPerDay + o.task.start;
    }
  }

  /** Two events share a uid exactly when they come from the same task. */
  lemma UidIdentifiesTask(ctx: Context, o1: Occurrence, o2: Occurrence)
    ensures EventAt(ctx, o1).uid == EventAt(ctx, o2).uid <==> o1.index == o2.index
  {
    var p := ctx.mowerName + "-";
    if Uid(ctx, o1.index) == Uid(ctx, o2.index) {
      assert NatToString(o1.index + 1) == Uid(ctx, o1.index)[|p|..];
      assert NatToString(o2.index + 1) == Uid(ctx, o2.index)[|p|..];
      NatToStringInjective(o1.index + 1, o2.index + 1);
    }
  }

  lemma WholeDays(n: int)
    ensures (n * MinutesPerDay) % MinutesPerDay == 0
  {
  }

  /** Two events of the same task, on an earlier and a later day offset,
      start whole days apart. */
  lemma LaterDaySameTask(ctx: Context, o1: Occurrence, o2: Occurrence)
    requires o1.task == o2.task && o1.day < o2.day
    ensures EventAt(ctx, o1).start + MinutesPerDay <= EventAt(ctx, o2).start
    ensures (EventAt(ctx, o2).start - EventAt(ctx, o1).start) % MinutesPerDay == 0
  {
    var gap := o2.day - o1.day;
    assert EventAt(ctx, o2).start - EventAt(ctx, o1).start == gap * MinutesPerDay;
    WholeDays(gap);
  }

  /** The events of one task (same uid) come out in strictly increasing
      start order, a whole number of days apart. */
  lemma OneTaskEventsAscend(ctx: Context, tasks: seq<Task>, j: nat, k: nat)
    requires j < k < |Expand(ctx, tasks)|
    requires Expand(ctx, tasks)[j].uid == Expand(ctx, tasks)[k].uid
    ensures Expand(ctx, tasks)[j].start + MinutesPerDay <= Expand(ctx, tasks)[k].start
    ensures (Expand(ctx, tasks)[k].start - Expand(ctx, tasks)[j].start) % MinutesPerDay == 0
  {
    var occ := AllOccurrences(ctx, tasks);
    var o1, o2 := occ[j], occ[k];
    assert Expand(ctx, tasks)[j] == EventAt(ctx, o1);
    assert Expand(ctx, tasks)[k] == EventAt(ctx, o2);
    UidIdentifiesTask(ctx, o1, o2);
    SameTaskPairsAscend(ctx, tasks, j, k);
    LaterDaySameTask(ctx, o1, o2);
  }

  /** Two emitted pairs of the same task position name the same task, the
      later one on a later day. */
  lemma SameTaskPairsAscend(ctx: Context, tasks: seq<Task>, j: nat, k: nat)
    requires j < k < |AllOccurrences(ctx, tasks)|
    requires AllOccurrences(ctx, tasks)[j].index == AllOccurrences(ctx, tasks)[k].index
    ensures AllOccurrences(ctx, tasks)[j].task == AllOccurrences(ctx, tasks)[k].task
    ensures AllOccurrences(ctx, tasks)[j].day < AllOccurrences(ctx, tasks)[k].day
  {
    var occ := AllOccurrences(ctx, tasks);
    AllOccurrencesOrdered(ctx, tasks);
    assert Precedes(occ[j], occ[k]);
    OccurrencesSound(tasks, WeekFlags(ctx, tasks), |tasks|);
    assert occ[j] in occ && occ[k] in occ;
  }
}

=== FILE: roundtrip.dfy ===
/** How the two directions of the calendar fit together: an event the
    expansion produces, offered back to the update unchanged, rebuilds the
    task it came from: with the intended parse exactly, as written up to
    the day flags the parse keeps. */
module RoundTrip {
  import opened Text
  import opened Weekdays
  import opened Schedule
  import opened Enumeration
  import opened Expansion
  import opened Update

  /** The rule the expansion writes for weekday `w` is the weekly rule that
      lists `w` alone. */
  lemma RRuleIsWeeklyRule(w: Weekday)
    ensures RRuleFor(w) == WeeklyRule([w])
  {
    assert CodesOf([w]) == [Code(w)];
  }

  /** The update that offers event `e` back unchanged: its rule, start and
      end. */
  function UpdateOf(e: Event): EventUpdate
  {
    EventUpdate(e.rrule, e.start, e.end)
  }

  /** As written, feeding an emitted event back to the update is accepted
      and yields one task with the original start and duration that runs
      on the event's weekday only; for a Wednesday or a Friday the parse
      loses the day and the task runs on no day at all. */
  lemma EventRoundTrip(ctx: Context, o: Occurrence)
    requires 0 <= o.task.start && 0 <= o.task.duration
    requires o.task.start + o.task.duration < MinutesPerDay
    ensures TasksFromEvent(UpdateOf(EventAt(ctx, o))).Ok?
    ensures var tasks := TasksFromEvent(UpdateOf(EventAt(ctx, o))).value;
      var w := DayWeekday(ctx, o.day);
      && |tasks| == 1
      && tasks[0].start == o.task.start
      && tasks[0].duration == o.task.duration
      && forall v: Weekday :: tasks[0].RunsOn(v) <==> v == w && w != Wednesday && w != Friday
  {
    var e := EventAt(ctx, o);
    var w := DayWeekday(ctx, o.day);
    RRuleIsWeeklyRule(w);
    EventClockTimes(ctx, o);
    UpdateFromWeeklyRule([w], e.start, e.end);
  }

  /** The clock readings of an emitted event are its task's start and end
      times, when the task lies within one day. */
  lemma EventClockTimes(ctx: Context, o: Occurrence)
    requires 0 <= o.task.start && 0 <= o.task.duration
    requires o.task.start + o.task.duration < MinutesPerDay
    ensures ClockMinutes(EventAt(ctx, o).start) == o.task.start
    ensures ClockMinutes(EventAt(ctx, o).end) == o.task.start + o.task.duration
  {
    var e := EventAt(ctx, o);
    var day := ctx.anchorDay + o.day;
    assert e.start == day * MinutesPerDay + o.task.start;
    assert e.end == day * MinutesPerDay + (o.task.start + o.task.duration);
    ClockMinutesAfterMidnight(day, o.task.start);
    ClockMinutesAfterMidnight(day, o.task.start + o.task.duration);
  }

  /** With the intended parse, feeding an emitted event back yields one
      task with the original start and duration that runs on the event's
      weekday and on no other, whatever that weekday is. */
  lemma IntendedEventRoundTrip(ctx: Context, o: Occurrence)
    requires 0 <= o.task.start && 0 <= o.task.duration
    requires o.task.start + o.task.duration < MinutesPerDay
    ensures IntendedTasksFromEvent(UpdateOf(EventAt(ctx, o))).Ok?
    ensures var tasks := IntendedTasksFromEvent(UpdateOf(EventAt(ctx, o))).value;
      && |tasks| == 1
      && tasks[0].start == o.task.start
      && tasks[0].duration == o.task.duration
      && forall v: Weekday :: tasks[0].RunsOn(v) <==> v == DayWeekday(ctx, o.day)
  {
    var e := EventAt(ctx, o);
    var w := DayWeekday(ctx, o.day);
    RRuleIsWeeklyRule(w);
    EventClockTimes(ctx, o);
    IntendedUpdateFromWeeklyRule([w], e.start, e.end);
  }

  /** In particular, with the intended parse an event of a task that runs
      on a single weekday gives back exactly that task. */
  lemma SingleDayTaskRoundTrip(ctx: Context, o: Occurrence)
    requires 0 <= o.task.start && 0 <= o.task.duration
    requires o.task.start + o.task.duration < MinutesPerDay
    requires o.task.RunsOn(DayWeekday(ctx, o.day)) && FlagCount(o.task) == 1
    ensures IntendedTasksFromEvent(UpdateOf(EventAt(ctx, o))) == Ok([o.task])
  {
    IntendedEventRoundTrip(ctx, o);
    var t := IntendedTasksFromEvent(UpdateOf(EventAt(ctx, o))).value[0];
    var w := DayWeekday(ctx, o.day);
    OnlyFlag(o.task, w);
    forall v: Weekday
      ensures t.Flags()[v] == o.task.Flags()[v]
    {
      assert t.RunsOn(v) == o.task.RunsOn(v);
    }
    assert t.Flags() == o.task.Flags();
    assert t == o.task;
  }

  /** A task whose one set flag is `w` runs on no other weekday. */
  lemma OnlyFlag(t: Task, w: Weekday)
    requires t.RunsOn(w) && FlagCount(t) == 1
    ensures forall v: Weekday :: t.RunsOn(v) <==> v == w
  {
    FlagCountBySum(t);
  }

  /** The count of a task's flags, written out. */
  lemma FlagCountBySum(t: Task)
    ensures FlagCount(t) ==
      Indicator(t.monday) + Indicator(t.tuesday) + Indicator(t.wednesday) + Indicator(t.thursday)
      + Indicator(t.friday) + Indicator(t.saturday) + Indicator(t.sunday)
  {
    var f := t.Flags();
    assert CountSet(f[..1]) == Indicator(f[0]) by {
      assert f[..1][..0] == [];
    }
    assert CountSet(f[..2]) == CountSet(f[..1]) + Indicator(f[1]) by {
      assert f[..2][..1] == f[..1];
    }
    assert CountSet(f[..3]) == CountSet(f[..2]) + Indicator(f[2]) by {
      assert f[..3][..2] == f[..2];
    }
    assert CountSet(f[..4]) == CountSet(f[..3]) + Indicator(f[3]) by {
      assert f[..4][..3] == f[..3];
    }
    assert CountSet(f[..5]) == CountSet(f[..4]) + Indicator(f[4]) by {
      assert f[..5][..4] == f[..4];
    }
    assert CountSet(f[..6]) == CountSet(f[..5]) + Indicator(f[5]) by {
      assert f[..6][..5] == f[..5];
    }
    assert CountSet(f) == CountSet(f[..6]) + Indicator(f[6]);
  }
}

=== FILE: schedule.dfy ===
/** The two schedule representations the calendar translates between: the
    device's tasks and the calendar's events. Times are whole minutes of
    local wall-clock time counted from 1970-01-01 00:00, so local midnight of
    day `n` is the instant `n * MinutesPerDay`. */
module Schedule {
  import opened Weekdays

  datatype Option<T> = None | Some(value: T)

  const MinutesPerDay: int := 1440
  const MinutesPerHour: int := 60

  /** A moment in local time, in minutes since 1970-01-01 00:00. */
  type Instant = int

  /** `datetime.hour` and `datetime.minute` of an instant. */
  function Hour(t: Instant): int
  {
    (t % MinutesPerDay) / MinutesPerHour
  }

  function Minute(t: Instant): int
  {
    t % MinutesPerHour
  }

  /** One device task: a start (minutes after midnight), a duration in
      minutes and one flag per weekday, keyed in the device's record by the
      weekday's name. Neither number is range-checked by the calendar. */
  datatype Task = Task(
    start: int,
    duration: int,
    monday: bool,
    tuesday: bool,
    wednesday: bool,
    thursday: bool,
    friday: bool,
    saturday: bool,
    sunday: bool)
  {
    /** The seven flags in weekday order, Monday first. */
    function Flags(): (flags: seq<bool>)
      ensures |flags| == 7
    {
      [monday, tuesday, wednesday, thursday, friday, saturday, sunday]
    }

    /** The flag stored under `key` in the device's task record; `None`
        for a key that names no weekday. */
    function Flag(key: string): Option<bool>
    {
      if key == "monday" then Some(monday)
      else if key == "tuesday" then Some(tuesday)
      else if key == "wednesday" then Some(wednesday)
      else if key == "thursday" then Some(thursday)
      else if key == "friday" then Some(friday)
      else if key == "saturday" then Some(saturday)
      else if key == "sunday" then Some(sunday)
      else None
    }

    /** Whether the task runs on weekday `w`, read by position. */
    predicate RunsOn(w: Weekday)
    {
      Flags()[w]
    }
  }

  /** The calendar's test `task[WEEKDAYS[w]] is True` reads the flag that
      `RunsOn` reads by position: the weekday's name is a key of the
      record, and the flag stored under it is the task's flag for `w`. */
  lemma RunsOnByName(t: Task, w: Weekday)
    ensures t.Flag(Name(w)).Some?
    ensures t.RunsOn(w) <==> t.Flag(Name(w)) == Some(true)
  {
  }

  /** The task with the given start and duration that runs on exactly the
      weekdays `runs` selects. */
  function MakeTask(start: int, duration: int, runs: Weekday -> bool): (t: Task)
    ensures t.start == start && t.duration == duration
    ensures forall w: Weekday :: t.RunsOn(w) == runs(w)
  {
    Task(start, duration, runs(0), runs(1), runs(2), runs(3), runs(4), runs(5), runs(6))
  }

  function Indicator(b: bool): nat
  {
    if b then 1 else 0
  }

  /** How many of `flags` are set. */
  function CountSet(flags: seq<bool>): nat
    decreases |flags|
  {
    if |flags| == 0 then 0 else CountSet(flags[..|flags| - 1]) + Indicator(flags[|flags| - 1])
  }

  lemma {:induction false} CountSetAppend(a: seq<bool>, b: seq<bool>)
    ensures CountSet(a + b) == CountSet(a) + CountSet(b)
    decreases |b|
  {
    if |b| > 0 {
      CountSetAppend(a, b[..|b| - 1]);
      assert (a + b)[..|a + b| - 1] == a + b[..|b| - 1];
    } else {
      assert a + b == a;
    }
  }

  /** How many weekdays a task runs on. */
  function FlagCount(t: Task): nat
  {
    CountSet(t.Flags())
  }

  /** The start of every recurrence rule the calendar writes: weekly, on
      the day codes that follow. */
  const WeeklyPrefix: string := "FREQ=WEEKLY;BYDAY="

  /** A calendar event. `rrule` and `uid` are absent on the placeholder;
      `location` is absent when the mower's address could not be found. */
  datatype Event = Event(
    summary: string,
    start: Instant,
    end: Instant,
    location: Option<string>,
    rrule: Option<string>,
    uid: Option<string>,
    description: string)
}

=== FILE: text.dfy ===
/** The few Python string builtins the schedule translator relies on:
    substring test (`sub in s`), `str.lstrip(chars)`, `str.split(sep)` and
    decimal formatting of a non-negative `int` inside an f-string. */
module Text {

  /** `sub in s`: some window of `s` equals `sub` (the empty string occurs
      everywhere, even in the empty string). */
  predicate Contains(s: string, sub: string)
    decreases |s|
  {
    if |sub| <= |s| && s[..|sub|] == sub then true
    else if |s| == 0 then false
    else Contains(s[1..], sub)
  }

  /** `sub` occurs in `s` starting at position `i`. */
  ghost predicate OccursAt(s: string, sub: string, i: int)
  {
    0 <= i && i + |sub| <= |s| && s[i..i + |sub|] == sub
  }

  /** The scanning definition of `Contains` agrees with the positional one. */
  lemma {:induction false} ContainsIffOccurs(s: string, sub: string)
    ensures Contains(s, sub) <==> exists i :: OccursAt(s, sub, i)
    decreases |s|
  {
    if |sub| <= |s| && s[..|sub|] == sub {
      assert OccursAt(s, sub, 0);
    } else if |s| == 0 {
      assert forall i :: !OccursAt(s, sub, i);
    } else {
      ContainsIffOccurs(s[1..], sub);
      if Contains(s[1..], sub) {
        var i :| OccursAt(s[1..], sub, i);
        assert s[1..][i..i + |sub|] == s[i + 1..i + 1 + |sub|];
        assert OccursAt(s, sub, i + 1);
      } else {
        forall i | 0 < i && OccursAt(s, sub, i)
          ensures OccursAt(s[1..], sub, i - 1)
        {
          assert s[1..][i - 1..i - 1 + |sub|] == s[i..i + |sub|];
        }
      }
    }
  }

  /** A string that contains `sub` contains its first character. */
  lemma ContainsFirst(s: string, sub: string)
    ensures |sub| > 0 && Contains(s, sub) ==> sub[0] in s
  {
    if |sub| > 0 && Contains(s, sub) {
      ContainsIffOccurs(s, sub);
      var i :| OccursAt(s, sub, i);
      assert s[i] == s[i..i + |sub|][0];
    }
  }

  /** An occurrence ending before position `n` is an occurrence in `s[..n]`. */
  lemma ContainsInPrefix(s: string, n: nat, sub: string, i: nat)
    requires n <= |s| && i + |sub| <= n && s[i..i + |sub|] == sub
    ensures Contains(s[..n], sub)
  {
    ContainsIffOccurs(s[..n], sub);
    assert s[..n][i..i + |sub|] == sub;
    assert OccursAt(s[..n], sub, i);
  }

  /** `s.lstrip(chars)`: removes the longest leading run of characters that
      belong to the SET `chars`; it does not remove a prefix string. */
  function LStrip(s: string, chars: set<char>): (r: string)
    ensures |r| <= |s| && r == s[|s| - |r|..]
    ensures forall k :: 0 <= k < |s| - |r| ==> s[k] in chars
    ensures |r| > 0 ==> r[0] !in chars
    decreases |s|
  {
    if |s| > 0 && s[0] in chars then LStrip(s[1..], chars) else s
  }

  /** `s.removeprefix(p)`: `s` without a leading `p`, or `s` itself when it
      does not start with `p`. */
  function RemovePrefix(s: string, p: string): string
  {
    if |p| <= |s| && s[..|p|] == p then s[|p|..] else s
  }

  /** The position of the first `c` in `s`, or `|s|` when there is none. */
  function FirstIndex(s: string, c: char): (i: nat)
    ensures i <= |s|
    ensures i < |s| ==> s[i] == c
    ensures forall k :: 0 <= k < i ==> s[k] != c
    decreases |s|
  {
    if |s| == 0 || s[0] == c then 0 else 1 + FirstIndex(s[1..], c)
  }

  /** `sep.join(parts)`. */
  function Join(parts: seq<string>, sep: char): string
    decreases |parts|
  {
    if |parts| == 0 then ""
    else if |parts| == 1 then parts[0]
    else parts[0] + [sep] + Join(parts[1..], sep)
  }

  /** `s.split(sep)` for a one-character separator: never empty, no piece
      contains the separator, and joining the pieces back gives `s`. */
  function Split(s: string, sep: char): (parts: seq<string>)
    ensures |parts| >= 1
    ensures forall j :: 0 <= j < |parts| ==> sep !in parts[j]
    ensures Join(parts, sep) == s
    decreases |s|
  {
    var i := FirstIndex(s, sep);
    if i == |s| then [s]
    else
      var rest := Split(s[i + 1..], sep);
      assert s == s[..i] + [sep] + s[i + 1..];
      [s[..i]] + rest
  }

  /** The converse of `Split`'s contract: splitting a join of separator-free
      pieces gives the pieces back. */
  lemma {:induction false} SplitJoin(parts: seq<string>, sep: char)
    requires |parts| >= 1
    requires forall j :: 0 <= j < |parts| ==> sep !in parts[j]
    ensures Split(Join(parts, sep), sep) == parts
    decreases |parts|
  {
    var s := Join(parts, sep);
    if |parts| == 1 {
    } else {
      var p := parts[0];
      assert s == p + [sep] + Join(parts[1..], sep);
      var i := FirstIndex(s, sep);
      assert s[|p|] == sep;
      assert i == |p|;
      assert s[..i] == p;
      assert s[i + 1..] == Join(parts[1..], sep);
      SplitJoin(parts[1..], sep);
      assert parts == [p] + parts[1..];
    }
  }

  predicate IsDigit(c: char)
  {
    '0' <= c <= '9'
  }

  function DigitChar(d: nat): (c: char)
    requires d < 10
    ensures IsDigit(c)
  {
    ('0' as int + d) as char
  }

  function DigitValue(c: char): nat
  {
    if IsDigit(c) then c as int - '0' as int else 0
  }

  /** Decimal text of `n` with no sign and no leading zeros, as `f"{n}"`. */
  function NatToString(n: nat): (s: string)
    ensures |s| >= 1
    ensures forall k :: 0 <= k < |s| ==> IsDigit(s[k])
    decreases n
  {
    if n < 10 then [DigitChar(n)] else NatToString(n / 10) + [DigitChar(n % 10)]
  }

  /** Reads a string of decimal digits back as a number. */
  function ParseNat(s: string): nat
    decreases |s|
  {
    if |s| == 0 then 0 else 10 * ParseNat(s[..|s| - 1]) + DigitValue(s[|s| - 1])
  }

  lemma {:induction false} ParseNatToString(n: nat)
    ensures ParseNat(NatToString(n)) == n
    decreases n
  {
    var s := NatToString(n);
    if n >= 10 {
      ParseNatToString(n / 10);
      assert s[..|s| - 1] == NatToString(n / 10);
    }
  }

  /** Different numbers are written differently. */
  lemma NatToStringInjective(a: nat, b: nat)
    ensures NatToString(a) == NatToString(b) <==> a == b
  {
    ParseNatToString(a);
    ParseNatToString(b);
  }
}

=== FILE: update.dfy ===
/** The validation, parsing and task-construction part of
    `AutomowerCalendar.async_update_event`: a proposed weekly event becomes
    a one-task schedule that replaces the device's whole schedule. */
module Update {
  import opened Text
  import opened Weekdays
  import opened Schedule

  /** The rejections, in the order they are checked. */
  datatype UpdateError = NotRecurring | NotWeekly | NoDays
  {
    /** The text the rejection carries (spelling as in the source). */
    function Message(): (m: string)
      ensures this == NotRecurring ==> m == "Only reccuring events are allowed"
      ensures this == NotWeekly ==> m == "Please select weekly"
      ensures this == NoDays ==> m == "Please select day(s)"
    {
      match this
      case NotRecurring => "Only reccuring events are allowed"
      case NotWeekly => "Please select weekly"
      case NoDays => "Please select day(s)"
    }
  }

  datatype Result<T> = Ok(value: T) | Err(error: UpdateError)

  /** The parts of the proposed event the update reads: its recurrence rule
      (absent for a one-off event) and its start and end. */
  datatype EventUpdate = EventUpdate(rrule: Option<string>, dtstart: Instant, dtend: Instant)

  /** The argument given to `str.lstrip`, which Python reads as a SET of
      characters. */
  const StripArgument: string := "FREQ=WEKLY;BDA="

  const StripChars: set<char> := {'F', 'R', 'E', 'Q', '=', 'W', 'K', 'L', 'Y', ';', 'B', 'D', 'A'}

  /** `StripChars` holds exactly the characters of `StripArgument`. */
  lemma StripCharsOfArgument()
    ensures forall c :: c in StripChars <==> c in StripArgument
  {
  }

  /** `rrule.lstrip("FREQ=WEKLY;BDA=").split(",")`. */
  function DayList(rrule: string): (days: seq<string>)
    ensures |days| >= 1
    ensures Join(days, ',') == LStrip(rrule, StripChars)
    ensures forall k :: 0 <= k < |days| ==> ',' !in days[k]
  {
    Split(LStrip(rrule, StripChars), ',')
  }

  /** `dt.hour * 60 + dt.minute`: the minutes since local midnight, that
      is, the instant's offset from its own day's midnight. */
  function ClockMinutes(t: Instant): (m: int)
    ensures m == t % MinutesPerDay
    ensures 0 <= m < MinutesPerDay
  {
    assert t % MinutesPerHour == (t % MinutesPerDay) % MinutesPerHour;
    Hour(t) * MinutesPerHour + Minute(t)
  }

  /** The three checks on the proposed event's rule, in the source's
      order; the rule itself when all pass. */
  function ValidateRule(u: EventUpdate): (r: Result<string>)
    ensures u.rrule.None? ==> r == Err(NotRecurring)
    ensures u.rrule.Some? && !Contains(u.rrule.value, "WEEKLY") ==> r == Err(NotWeekly)
    ensures u.rrule.Some? && Contains(u.rrule.value, "WEEKLY") && !Contains(u.rrule.value, "BYDAY") ==>
      r == Err(NoDays)
    ensures r.Ok? <==> u.rrule.Some? && Contains(u.rrule.value, "WEEKLY") && Contains(u.rrule.value, "BYDAY")
    ensures r.Ok? ==> r.value == u.rrule.value
  {
    match u.rrule
    case None => Err(NotRecurring)
    case Some(rule) =>
      if !Contains(rule, "WEEKLY") then Err(NotWeekly)
      else if !Contains(rule, "BYDAY") then Err(NoDays)
      else Ok(rule)
  }

  /** The one task the update builds from the event's times and a parsed
      day list: clock start, clock end minus clock start, and a flag per
      weekday whose code the list holds. */
  function TaskFor(u: EventUpdate, days: seq<string>): (t: Task)
    ensures t.start == ClockMinutes(u.dtstart)
    ensures t.start + t.duration == ClockMinutes(u.dtend)
    ensures forall w: Weekday :: t.RunsOn(w) <==> Code(w) in days
  {
    var start := ClockMinutes(u.dtstart);
    MakeTask(start, ClockMinutes(u.dtend) - start, (w: Weekday) => Code(w) in days)
  }

  /** The task list the update submits, or the rejection it raises. */
  function TasksFromEvent(u: EventUpdate): (r: Result<seq<Task>>)
    ensures ValidateRule(u).Err? ==> r == Err(ValidateRule(u).error)
    ensures r.Ok? <==> ValidateRule(u).Ok?
    ensures r.Ok? ==>
      && |r.value| == 1
      && r.value[0].start == ClockMinutes(u.dtstart)
      && r.value[0].start + r.value[0].duration == ClockMinutes(u.dtend)
      && forall w: Weekday :: r.value[0].RunsOn(w) <==> Code(w) in DayList(u.rrule.value)
  {
    match ValidateRule(u)
    case Err(e) => Err(e)
    case Ok(rule) => Ok([TaskFor(u, DayList(rule))])
  }

  /** The device's schedule once the update has been submitted: a rejected
      update leaves it as it was; an accepted one discards every task the
      device had and holds only the task built from the event, so nothing of
      `current` survives. */
  function ScheduleAfterUpdate(current: seq<Task>, u: EventUpdate): (s: seq<Task>)
    ensures ValidateRule(u).Err? ==> s == current
    ensures ValidateRule(u).Ok? ==>
      && |s| == 1
      && s[0].start == ClockMinutes(u.dtstart)
      && s[0].start + s[0].duration == ClockMinutes(u.dtend)
      && forall w: Weekday :: s[0].RunsOn(w) <==> Code(w) in DayList(u.rrule.value)
  {
    match TasksFromEvent(u)
    case Ok(tasks) => tasks
    case Err(_) => current
  }

  /** The clock reading of the instant `m` minutes after midnight of `day`. */
  lemma ClockMinutesAfterMidnight(day: int, m: int)
    requires 0 <= m < MinutesPerDay
    ensures ClockMinutes(day * MinutesPerDay + m) == m
  {
    assert (day * MinutesPerDay + m) % MinutesPerDay == m;
  }

  /** `FREQ=WEEKLY;BYDAY=` followed by the codes of `days`, comma separated. */
  function WeeklyRule(days: seq<Weekday>): string
  {
    WeeklyPrefix + Join(CodesOf(days), ',')
  }

  function CodesOf(days: seq<Weekday>): (codes: seq<string>)
    ensures |codes| == |days|
  {
    seq(|days|, k requires 0 <= k < |days| => Code(days[k]))
  }

  /** The days the parse keeps: all of them, except that a first day of
      Wednesday or Friday is lost, because the letters of WE and FR all
      belong to the stripped character set. */
  function KeptDays(days: seq<Weekday>): seq<Weekday>
    requires |days| >= 1
  {
    if days[0] == Wednesday || days[0] == Friday then days[1..] else days
  }

  /** Stripping a prefix made only of stripped characters is the same as
      stripping what follows it. */
  lemma {:induction false} LStripThrough(p: string, s: string, chars: set<char>)
    requires forall k :: 0 <= k < |p| ==> p[k] in chars
    ensures LStrip(p + s, chars) == LStrip(s, chars)
    decreases |p|
  {
    if |p| > 0 {
      assert (p + s)[0] == p[0] && p[0] in chars;
      assert (p + s)[1..] == p[1..] + s;
      forall k | 0 <= k < |p[1..]|
        ensures p[1..][k] in chars
      {
        assert p[1..][k] == p[k + 1];
      }
      LStripThrough(p[1..], s, chars);
    } else {
      assert p + s == s;
    }
  }

  /** Which first letters survive the strip, and that the rule's fixed
      prefix does not. */
  lemma CodeCharacters()
    ensures forall w: Weekday :: w != Wednesday && w != Friday ==> Code(w)[0] !in StripChars
    ensures forall w: Weekday :: w == Wednesday || w == Friday ==> Code(w)[0] in StripChars && Code(w)[1] in StripChars
    ensures ',' !in StripChars
    ensures forall k :: 0 <= k < |WeeklyPrefix| ==> WeeklyPrefix[k] in StripChars
  {
  }

  /** A join split at its first piece. */
  lemma JoinHead(parts: seq<string>, sep: char)
    requires |parts| >= 1
    ensures Join(parts, sep) == parts[0] + (if |parts| == 1 then "" else [sep] + Join(parts[1..], sep))
  {
    if |parts| > 1 {
      assert parts[0] + [sep] + Join(parts[1..], sep) == parts[0] + ([sep] + Join(parts[1..], sep));
    } else {
      assert parts[0] + "" == parts[0];
    }
  }

  /** The text after the first day code of a weekly rule. */
  function RestOfRule(days: seq<Weekday>): string
    requires |days| >= 1
  {
    if |days| == 1 then "" else [','] + Join(CodesOf(days[1..]), ',')
  }

  lemma RuleShape(days: seq<Weekday>)
    requires |days| >= 1
    ensures Join(CodesOf(days), ',') == Code(days[0]) + RestOfRule(days)
  {
    var codes := CodesOf(days);
    JoinHead(codes, ',');
    assert codes[1..] == CodesOf(days[1..]);
  }

  /** What the strip leaves of a weekly rule: everything from the first
      day code on, or everything after it when that code is WE or FR. */
  lemma StripWeeklyRule(days: seq<Weekday>)
    requires |days| >= 1
    ensures LStrip(WeeklyRule(days), StripChars) ==
      if days[0] == Wednesday || days[0] == Friday then RestOfRule(days) else Join(CodesOf(days), ',')
  {
    var body := Join(CodesOf(days), ',');
    CodeCharacters();
    LStripThrough(WeeklyPrefix, body, StripChars);
    RuleShape(days);
    if days[0] == Wednesday || days[0] == Friday {
      StripLostCode(days[0], RestOfRule(days));
    } else {
      StripKeptCode(days[0], RestOfRule(days));
    }
  }

  /** A leading WE or FR goes with the strip; the comma after it stays. */
  lemma StripLostCode(w: Weekday, rest: string)
    requires w == Wednesday || w == Friday
    requires |rest| == 0 || rest[0] == ','
    ensures LStrip(Code(w) + rest, StripChars) == rest
  {
    StripStopsAtComma(rest);
    var code := Code(w);
    LostCodeLetters(w);
    LStripThrough(code, rest, StripChars);
  }

  /** Both letters of WE and FR are stripped characters. */
  lemma LostCodeLetters(w: Weekday)
    requires w == Wednesday || w == Friday
    ensures forall k :: 0 <= k < |Code(w)| ==> Code(w)[k] in StripChars
  {
    CodesAreDistinct();
    CodeCharacters();
  }

  lemma StripStopsAtComma(rest: string)
    requires |rest| == 0 || rest[0] == ','
    ensures LStrip(rest, StripChars) == rest
  {
    assert ',' !in StripChars;
  }

  /** Any other leading code stops the strip at once. */
  lemma StripKeptCode(w: Weekday, rest: string)
    requires w != Wednesday && w != Friday
    ensures LStrip(Code(w) + rest, StripChars) == Code(w) + rest
  {
    CodesAreDistinct();
    CodeCharacters();
    assert (Code(w) + rest)[0] == Code(w)[0];
  }

  /** What the parse makes of a weekly rule listing `days`: the list of
      their codes, except that a leading WE or FR turns into an empty
      string. */
  lemma DayListOfWeeklyRule(days: seq<Weekday>)
    requires |days| >= 1
    ensures DayList(WeeklyRule(days)) ==
      if days[0] == Wednesday || days[0] == Friday then [""] + CodesOf(days[1..]) else CodesOf(days)
  {
    StripWeeklyRule(days);
    if days[0] == Wednesday || days[0] == Friday {
      SplitAfterLostCode(days);
    } else {
      CodesAreDistinct();
      SplitJoin(CodesOf(days), ',');
    }
  }

  /** Splitting what is left after a lost first code: an empty first piece,
      then the codes of the remaining days. */
  lemma SplitAfterLostCode(days: seq<Weekday>)
    requires |days| >= 1
    ensures Split(RestOfRule(days), ',') == [""] + CodesOf(days[1..])
  {
    var rest := CodesOf(days[1..]);
    if |days| == 1 {
      assert Split("", ',') == [""];
      assert [""] + rest == [""];
    } else {
      CodesAreDistinct();
      JoinHead([""] + rest, ',');
      assert ([""] + rest)[1..] == rest;
      SplitJoin([""] + rest, ',');
    }
  }

  /** A weekday's code is among the codes of `days` exactly when the
      weekday is among `days`; no code is empty. */
  lemma CodesOfMembership(days: seq<Weekday>, w: Weekday)
    ensures Code(w) in CodesOf(days) <==> w in days
    ensures Code(w) != ""
  {
    CodesAreDistinct();
    if w in days {
      var k :| 0 <= k < |days| && days[k] == w;
      assert CodesOf(days)[k] == Code(w);
    }
    if Code(w) in CodesOf(days) {
      var k :| 0 <= k < |days| && CodesOf(days)[k] == Code(w);
      assert Code(days[k]) == Code(w);
    }
  }

  /** An update whose rule lists `days` is accepted and yields one task
      that runs exactly on the kept days, starting at the clock time of
      `dtstart` and ending at the clock time of `dtend`. */
  lemma UpdateFromWeeklyRule(days: seq<Weekday>, dtstart: Instant, dtend: Instant)
    requires |days| >= 1
    ensures TasksFromEvent(EventUpdate(Some(WeeklyRule(days)), dtstart, dtend)).Ok?
    ensures var tasks := TasksFromEvent(EventUpdate(Some(WeeklyRule(days)), dtstart, dtend)).value;
      && |tasks| == 1
      && tasks[0].start == ClockMinutes(dtstart)
      && tasks[0].duration == ClockMinutes(dtend) - ClockMinutes(dtstart)
      && forall w: Weekday :: tasks[0].RunsOn(w) <==> w in KeptDays(days)
  {
    var rule := WeeklyRule(days);
    RuleIsWeeklyWithDays(days);
    DayListOfWeeklyRule(days);
    var kept := KeptDays(days);
    forall w: Weekday
      ensures Code(w) in DayList(rule) <==> w in kept
    {
      CodesOfMembership(kept, w);
    }
  }

  /** What `async_update_event` evidently means the strip to do: remove
      the text `FREQ=WEEKLY;BYDAY=` from the front of the rule, then split
      the rest at commas. */
  function IntendedDayList(rrule: string): seq<string>
  {
    Split(RemovePrefix(rrule, WeeklyPrefix), ',')
  }

  /** The update with the intended parse; validation and task building are
      those of `TasksFromEvent`. */
  function IntendedTasksFromEvent(u: EventUpdate): (r: Result<seq<Task>>)
    ensures ValidateRule(u).Err? ==> r == Err(ValidateRule(u).error)
    ensures r.Ok? <==> ValidateRule(u).Ok?
    ensures r.Ok? ==>
      && |r.value| == 1
      && r.value[0].start == ClockMinutes(u.dtstart)
      && r.value[0].start + r.value[0].duration == ClockMinutes(u.dtend)
      && forall w: Weekday :: r.value[0].RunsOn(w) <==> Code(w) in IntendedDayList(u.rrule.value)
  {
    match ValidateRule(u)
    case Err(e) => Err(e)
    case Ok(rule) => Ok([TaskFor(u, IntendedDayList(rule))])
  }

  /** The intended parse reads back every day of a weekly rule, in order,
      whichever day comes first. */
  lemma IntendedDayListOfWeeklyRule(days: seq<Weekday>)
    requires |days| >= 1
    ensures IntendedDayList(WeeklyRule(days)) == CodesOf(days)
  {
    var rule := WeeklyRule(days);
    assert rule[..|WeeklyPrefix|] == WeeklyPrefix;
    assert rule[|WeeklyPrefix|..] == Join(CodesOf(days), ',');
    CodesAreDistinct();
    SplitJoin(CodesOf(days), ',');
  }

  /** With the intended parse, an update whose rule lists `days` yields one
      task that runs on exactly those days. */
  lemma IntendedUpdateFromWeeklyRule(days: seq<Weekday>, dtstart: Instant, dtend: Instant)
    requires |days| >= 1
    ensures IntendedTasksFromEvent(EventUpdate(Some(WeeklyRule(days)), dtstart, dtend)).Ok?
    ensures var tasks := IntendedTasksFromEvent(EventUpdate(Some(WeeklyRule(days)), dtstart, dtend)).value;
      && |tasks| == 1
      && tasks[0].start == ClockMinutes(dtstart)
      && tasks[0].duration == ClockMinutes(dtend) - ClockMinutes(dtstart)
      && forall w: Weekday :: tasks[0].RunsOn(w) <==> w in days
  {
    var rule := WeeklyRule(days);
    RuleIsWeeklyWithDays(days);
    IntendedDayListOfWeeklyRule(days);
    forall w: Weekday
      ensures Code(w) in IntendedDayList(rule) <==> w in days
    {
      CodesOfMembership(days, w);
    }
  }

  /** A rule built from day codes passes the WEEKLY and BYDAY checks. */
  lemma RuleIsWeeklyWithDays(days: seq<Weekday>)
    ensures Contains(WeeklyRule(days), "WEEKLY") && Contains(WeeklyRule(days), "BYDAY")
  {
    var rule := WeeklyRule(days);
    ContainsIffOccurs(rule, "WEEKLY");
    ContainsIffOccurs(rule, "BYDAY");
    assert rule[5..11] == "WEEKLY";
    assert OccursAt(rule, "WEEKLY", 5);
    assert rule[12..17] == "BYDAY";
    assert OccursAt(rule, "BYDAY", 12);
  }

  /** The worked example: 08:00 to 10:30 on Mondays and Wednesdays. */
  lemma MondayWednesdayExample(day: int)
    ensures DayList(WeeklyRule([Monday, Wednesday])) == ["MO", "WE"]
    ensures var u := EventUpdate(Some(WeeklyRule([Monday, Wednesday])), day * MinutesPerDay + 480, day * MinutesPerDay + 630);
      TasksFromEvent(u) == Ok([Task(480, 150, true, false, true, false, false, false, false)])
  {
    var days: seq<Weekday> := [Monday, Wednesday];
    assert CodesOf(days) == ["MO", "WE"];
    DayListOfWeeklyRule(days);
    var u := EventUpdate(Some(WeeklyRule(days)), day * MinutesPerDay + 480, day * MinutesPerDay + 630);
    UpdateFromWeeklyRule(days, u.dtstart, u.dtend);
    ClockMinutesAfterMidnight(day, 480);
    ClockMinutesAfterMidnight(day, 630);
    var t := TasksFromEvent(u).value[0];
    assert t.RunsOn(0) && !t.RunsOn(1) && t.RunsOn(2) && !t.RunsOn(3);
    assert !t.RunsOn(4) && !t.RunsOn(5) && !t.RunsOn(6);
    assert t.start == 480 && t.duration == 150;
    assert t == Task(480, 150, true, false, true, false, false, false, false);
    assert TasksFromEvent(u).value == [t];
  }

  /** An event from 23:00 to 01:00 the next day yields a task with a
      negative duration: the clock times are subtracted with no wrap. */
  lemma OvernightEventExample(day: int)
    ensures var u := EventUpdate(Some(WeeklyRule([Monday])), day * MinutesPerDay + 1380, (day + 1) * MinutesPerDay + 60);
      && TasksFromEvent(u).Ok?
      && TasksFromEvent(u).value[0].start == 1380
      && TasksFromEvent(u).value[0].duration == -1320
  {
    UpdateFromWeeklyRule([Monday], day * MinutesPerDay + 1380, (day + 1) * MinutesPerDay + 60);
    ClockMinutesAfterMidnight(day, 1380);
    ClockMinutesAfterMidnight(day + 1, 60);
  }

  /** An event spanning a whole day, midnight to the next midnight, yields
      a task with duration 0: both clock readings are 00:00. This is what
      an all-day task (start 0, duration 1440) comes back as. */
  lemma AllDayEventExample(day: int)
    ensures var u := EventUpdate(Some(WeeklyRule([Monday])), day * MinutesPerDay, (day + 1) * MinutesPerDay);
      && TasksFromEvent(u).Ok?
      && TasksFromEvent(u).value[0].start == 0
      && TasksFromEvent(u).value[0].duration == 0
  {
    UpdateFromWeeklyRule([Monday], day * MinutesPerDay, (day + 1) * MinutesPerDay);
    ClockMinutesAfterMidnight(day, 0);
    ClockMinutesAfterMidnight(day + 1, 0);
  }

  /** A leading WE or FR is eaten by the strip: "WE,TH" keeps only TH, and
      "FR" alone leaves no day at all, so the task runs on no day. */
  lemma LeadingWednesdayOrFridayLost()
    ensures DayList(WeeklyRule([Wednesday, Thursday])) == ["", "TH"]
    ensures DayList(WeeklyRule([Friday])) == [""]
  {
    var both: seq<Weekday> := [Wednesday, Thursday];
    DayListOfWeeklyRule(both);
    assert CodesOf(both[1..]) == ["TH"];
    DayListOfWeeklyRule([Friday]);
  }

  /** `FREQ=WEEKLY;BYDAY=` with nothing after it passes all three checks:
      the day list is a single empty string, and the task runs on no day. */
  lemma EmptyDayListAccepted(s: Instant, e: Instant)
    ensures DayList(WeeklyRule([])) == [""]
    ensures TasksFromEvent(EventUpdate(Some(WeeklyRule([])), s, e)).Ok?
    ensures forall w: Weekday :: !TasksFromEvent(EventUpdate(Some(WeeklyRule([])), s, e)).value[0].RunsOn(w)
  {
    var rule := WeeklyRule([]);
    assert rule == WeeklyPrefix + "";
    CodeCharacters();
    LStripThrough(WeeklyPrefix, "", StripChars);
    assert Split("", ',') == [""];
    RuleIsWeeklyWithDays([]);
    forall w: Weekday
      ensures Code(w) !in DayList(rule)
    {
      CodesOfMembership([], w);
    }
  }

  const DailyRule: string := "FREQ=DAILY"

  /** The rejections and their order: no rule, then a daily rule, then a
      weekly rule with no days. */
  lemma OneOffRejected(s: Instant, e: Instant)
    ensures TasksFromEvent(EventUpdate(None, s, e)) == Err(NotRecurring)
  {
  }

  lemma DailyRejected(s: Instant, e: Instant)
    ensures TasksFromEvent(EventUpdate(Some(DailyRule), s, e)) == Err(NotWeekly)
  {
    ContainsFirst(DailyRule, "WEEKLY");
    assert 'W' !in DailyRule;
  }

  lemma WeeklyWithoutDaysRejected(s: Instant, e: Instant)
    ensures WeeklyPrefix[..11] == "FREQ=WEEKLY"
    ensures TasksFromEvent(EventUpdate(Some(WeeklyPrefix[..11]), s, e)) == Err(NoDays)
  {
    var weekly := WeeklyPrefix[..11];
    ContainsFirst(weekly, "BYDAY");
    assert 'B' !in weekly;
    ContainsInPrefix(WeeklyPrefix, 11, "WEEKLY", 5);
  }
}

=== FILE: weekdays.dfy ===
/** The weekday lookup tables the calendar imports (`WEEKDAYS` and
    `WEEKDAYS_TO_RFC5545`), and the weekday of a calendar day. The tables
    live in const.py, which is not part of this model; they are taken to list
    monday..sunday at indices 0..6 and to map them to the RFC 5545 BYDAY
    codes MO, TU, WE, TH, FR, SA, SU. */
module Weekdays {

  /** Python's `date.weekday()` convention: Monday is 0, Sunday is 6. */
  type Weekday = d: nat | d < 7

  const Monday: Weekday := 0
  const Wednesday: Weekday := 2
  const Thursday: Weekday := 3
  const Friday: Weekday := 4

  /** `WEEKDAYS`: the key of each weekday's flag in a device task. */
  const Names: seq<string> := ["monday", "tuesday", "wednesday", "thursday", "friday", "saturday", "sunday"]

  /** `WEEKDAYS_TO_RFC5545`, indexed by weekday instead of by name. */
  const Codes: seq<string> := ["MO", "TU", "WE", "TH", "FR", "SA", "SU"]

  function Name(w: Weekday): string
  {
    Names[w]
  }

  /** Each weekday has its own flag key. */
  lemma NamesAreDistinct()
    ensures forall a: Weekday, b: Weekday :: Name(a) == Name(b) <==> a == b
  {
  }

  function Code(w: Weekday): string
  {
    Codes[w]
  }

  /** The weekday of the calendar day `day`, counted in days from
      1970-01-01, which was a Thursday. */
  function WeekdayOfDay(day: int): (w: Weekday)
    ensures (day - w) % 7 == 4
    ensures day == 0 ==> w == Thursday
  {
    (day + 3) % 7
  }

  /** Each weekday has its own code, two capital letters and no comma. */
  lemma CodesAreDistinct()
    ensures forall a: Weekday, b: Weekday :: Code(a) == Code(b) <==> a == b
    ensures forall w: Weekday :: |Code(w)| == 2 && ',' !in Code(w)
  {
  }

  /** Seven consecutive days cover each weekday exactly once: the weekday of
      `day + d` is the weekday of `day` advanced by `d`, modulo seven. */
  lemma WeekdayOfLaterDay(day: int, d: nat)
    ensures WeekdayOfDay(day + d) == (WeekdayOfDay(day) + d) % 7
  {
  }
}
